=== FILE: README.md ===
# Embroidery simulator playback engine, in Dafny

This project models the playback engine of the embroidery simulator in `lib/simulator.py`.
The simulator replays a stitch plan stitch by stitch, so an operator can preview a design
before stitching it. The model covers four parts.

- **The stitch index.** The drawing panel's `parse_stitch_plan` builds three lists from
  the colour blocks of a plan.
  - `commands` classifies every stitch. It is 1-indexed, with a placeholder at index 0.
  - `stitch_blocks` holds the segments. A segment is a run of stitch positions, cut after
    every trim, stop or colour-change stitch and at the end of every block.
  - `pens` holds one pen per segment.
- **The playback state machine.** Its state is the current stitch, the direction, the
  animating flag, the loaded flag and the stitch count. The drawing panel changes it
  through `clamp_current_stitch`, `stop_if_at_end`, `start_if_not_at_end`,
  `set_current_stitch`, `forward`, `reverse`, `go`, `stop`, `restart`,
  `one_stitch_forward` / `one_stitch_backward`, `load` and the position update of `animate`.
- **The segment walk of a paint event.** Given the current stitch, it decides which
  segments are drawn whole, how much of the next one is drawn, and where the crosshair goes.
- **The control panel's numeric rules.** These are `set_speed`, `animation_slow_down` /
  `animation_speed_up`, `set_num_stitches` and `choose_speed`.

Layout:

- `stitch_plan.dfy` (module `StitchPlan`) holds the plan datatypes, the classification, and
  the specification of the index.
  - The segments of a block are defined by a left fold `Scan`.
  - `IsSegmentation` characterises them independently, and the two are proved to agree and
    to be unique.
- `render.dfy` (module `Render`) specifies the walk as a function `Select`. It proves what
  the walk means, and proves the loop `PaintWalk` against it.
- `playback.dfy` (module `Playback`) gives the playback transitions as functions on
  `(current, direction, animating)`, with lemmas about them.
- `speed.dfy` (module `Speed`) holds the speed rules, with Python's `int()` modelled as
  truncation toward zero.
- `simulator.dfy` (module `Simulator`) holds the classes `DrawingPanel` and `ControlPanel`.
  - Each method updates the fields as the source does, and its `ensures` ties the new state
    to the functions above.
  - The notifications the drawing panel sends to the control panel (`on_current_stitch`,
    `on_start`, `on_stop`) are recorded in a ghost `notices` log.
- `seqs.dfy` and `options.dfy` hold sequence lemmas and an `Option` type.

Three behaviours of the code are easy to misread; the model follows the code.

- **An empty plan.** One might expect an empty plan to give a stitch count of 0 and no-op
  playback. In the code, clamping with 0 stitches stores stitch 1 (`ClampWithoutStitches`),
  and `commands[1]` is then out of range. So `Load` requires the provider's stitch count to
  be at least 1. It also requires that count to equal the real number of stitches, which
  the code relies on but never checks.
- **The position after a load.** One might expect playback to sit at stitch 1 after a
  load. In the code, `load` stores stitch 1 and then calls `go`, which ticks once at once. `Load` states
  this.
- **A start at the end.** In the code, `go` at the end of travel sends "stopped" and then
  "started", although the panel ends up stopped. `Go`'s `ensures` records that order.

## Model

| member | source | states |
|---|---|---|
| StitchPlan.Classify | lib/simulator.py:424-433 | the command is NormalStitch exactly when no flag is set; otherwise it is one of the stitch's flags, and no flag set on the stitch ranks higher (TRIM > JUMP > STOP > COLOR_CHANGE) |
| StitchPlan.ClassifyAndSegmentEnd | lib/simulator.py:424-438 | a stitch classified TRIM, STOP or COLOR_CHANGE ends its segment; the only other segment-ending stitches are jumps that also carry a stop or colour-change flag, classified JUMP; a plain stitch never ends one; a jump alone is classified JUMP and never splits a segment |
| StitchPlan.ScanInvariant | lib/simulator.py:418-438 | the closed segments plus the open one concatenate to the stitches scanned so far; every closed segment is non-empty and ends with, and only with, its last stitch; the open one contains no segment end |
| StitchPlan.BlockSegmentsIsSegmentation | lib/simulator.py:418-442 | a block's segments are non-empty, concatenate to the block, contain a trim/stop/colour change only as their last stitch, and every segment but the last one ends with one |
| StitchPlan.SegmentationTail | lib/simulator.py:435-442 | the first piece of a segmentation is a prefix of the block, and the remaining pieces segment the rest |
| StitchPlan.SegmentationUnique | lib/simulator.py:435-442 | two segmentations of the same block are equal |
| StitchPlan.BlockSegmentsUnique | lib/simulator.py:435-442 | any segmentation of a block is exactly the one the parser builds |
| StitchPlan.ConcatTraces | lib/simulator.py:418-422 | the positions of the segments, concatenated, are the positions of the concatenated stitches |
| StitchPlan.PensAligned | lib/simulator.py:435-442 | the pen list and the segment list have the same length |
| StitchPlan.SegmentsNonEmpty | lib/simulator.py:440-442 | no empty segment is ever emitted |
| StitchPlan.SegmentsTracePlan | lib/simulator.py:414-442 | concatenating all segments gives every stitch position of the plan, in plan order |
| StitchPlan.CommandsIndexed | lib/simulator.py:411-433 | the command list has one entry per stitch plus the placeholder at index 0; entry k classifies stitch k |
| StitchPlan.PlanIndexWellFormed | lib/simulator.py:407-442 | the command list has one entry per stitch plus the placeholder, with entry k classifying stitch k; pens and segments have equal length; no segment is empty; the segments concatenate to all stitch positions in order |
| StitchPlan.Owner | lib/simulator.py:414-442 | every segment of the index is the trace of one segment of one colour block, so no segment spans two blocks, and its pen is that block's pen |
| Render.SelectFrom | lib/simulator.py:329-340 | the walk from segment i stops at or after i, and when it stops inside the list it keeps between 1 and the whole of that segment's points |
| Render.Select | lib/simulator.py:325-340 | the walk from the first segment stops within the list, or just past its end; when it stops inside, it keeps at least one point of the stopping segment |
| Render.SelectFromCounts | lib/simulator.py:329-337 | every segment passed whole has its running count plus length below c; the stopping segment reaches c and keeps c minus the stitches before it; running off the end leaves fewer than c stitches in total |
| Render.SelectMeaning | lib/simulator.py:325-340 | for c >= 1: every segment drawn whole has fewer than c stitches through its end, and the stopping segment reaches c; the cut keeps c minus the count before it, at least 1; the pieces cover exactly the first min(c, total) positions in order; the marker is the last of them, or none when there are no segments |
| Render.StitchesThroughMono | lib/simulator.py:329-331 | the running stitch count through segment k never decreases as k grows |
| Render.SelectIff | lib/simulator.py:329-340 | for every segment k, k is drawn whole iff the stitches through its end number fewer than c |
| Render.SelectExample | lib/simulator.py:329-340 | with segments of 3, 4 and 2 points at stitch 5, the first is drawn whole, the second is cut to 2 points, and the marker is the fifth position |
| Render.MarkerIsStitch | lib/simulator.py:325-343 | over the segments of a plan, the crosshair for stitch c (1 <= c <= the stitch count) sits on the position of stitch c of the plan |
| Render.MarkerOfSelect | lib/simulator.py:325-340 | when c is within the stitches, the crosshair of the walk is the c-th stitch position |
| Render.PaintWalk | lib/simulator.py:325-340 | the loop with its running counter and `break` returns exactly the polylines and marker of `Select`: whole segments with their pens, then the cut segment only if it keeps more than one point |
| Playback.Clamp | lib/simulator.py:277-281 | with at least one stitch, the stored stitch lies in [1, numStitches] and is the in-range stitch nearest the request |
| Playback.ClampIdempotent | lib/simulator.py:277-281 | clamping twice is clamping once, and clamping leaves n unchanged iff n is already in range |
| Playback.ClampWithoutStitches | lib/simulator.py:277-281 | with zero stitches the clamp stores 1, outside the range it is meant to enforce |
| Playback.RoomIffNotAtEnd | lib/simulator.py:283-293 | within the range, the start test of start_if_not_at_end and the stop test of stop_if_at_end are exact opposites |
| Playback.SetStitchMeaning | lib/simulator.py:455-459 | setting a stitch lands in range, keeps the direction, and clears the animating flag exactly when the clamped stitch is the end in the direction of travel (clamp first, then check) |
| Playback.SetStitchIdempotent | lib/simulator.py:455-459 | setting the same stitch twice is the same as setting it once |
| Playback.RunClamps | lib/simulator.py:295-309 | any run of ticks from an animating in-range state ends at the clamp of the start plus the direction times the total increment, and is animating iff that is not the end: playback never wraps or overshoots |
| Playback.GoMeaning | lib/simulator.py:392-399 | go does nothing when not loaded or already animating; otherwise it starts the animation and performs exactly one tick, which may stop it at once at the end |
| Playback.ForwardReverseMeaning | lib/simulator.py:447-453 | forward/reverse set the direction to +1/-1; at the end in that direction the stitch and the animating flag are left alone; with room they behave as go |
| Playback.ReverseAfterForwardAtEnd | lib/simulator.py:447-453 | stopped at the last stitch, forward changes nothing; a reverse right after it ticks back to the clamp of the last stitch minus the increment, and keeps running only when that tick stays short of stitch 1 (otherwise it stops there at once, as it does on a 2-stitch plan for any increment of at least 1) |
| Playback.RestartMeaning | lib/simulator.py:462-468 | restart jumps, unclamped, to stitch 1 going forward or to the last stitch going back, then goes: a running panel only moves, a stopped one ticks once from there |
| Speed.Trunc | lib/simulator.py:135 | Python's int() of a float: the result is within one of x, on the side toward zero |
| Speed.SpeedFor | lib/simulator.py:159-160 | the stored speed is at least 1; any value below 2 gives 1; otherwise it is the whole part of the value |
| Speed.SpeedForWhole | lib/simulator.py:159-160 | a whole speed of at least 1 is stored unchanged |
| Speed.SlowDownHalves | lib/simulator.py:192-194 | slowing down halves the speed, rounding down, but never below 1 |
| Speed.SpeedUpDoubles | lib/simulator.py:196-198 | speeding up doubles the speed |
| Speed.PanelStitchCount | lib/simulator.py:124-128 | the control panel's stitch count is the given count from 2 on, and exactly 2 for any count below 2 |
| Speed.ChosenSpeed | lib/simulator.py:133-137 | the chosen speed is at least 1; without a (non-zero) target duration it is the configured stitches per second, stored as set_speed stores it |
| Speed.ChosenSpeedMeetsDuration | lib/simulator.py:133-135 | with a positive target duration of at most one second per stitch, playing at the chosen speed takes at least the target duration, and one more stitch per second would take less than it |
| Simulator.DrawingPanel.constructor | lib/simulator.py:246-275 | a new panel is stopped, unloaded, at stitch 0, going forward, at speed 16 |
| Simulator.DrawingPanel.ClampCurrentStitch | lib/simulator.py:277-281 | the current stitch becomes Clamp of its old value |
| Simulator.DrawingPanel.Stop | lib/simulator.py:388-390 | the panel stops and reports "stopped" |
| Simulator.DrawingPanel.StopIfAtEnd | lib/simulator.py:283-287 | the panel stops, and reports it, exactly when it is at the end in its direction of travel |
| Simulator.DrawingPanel.SetCurrentStitch | lib/simulator.py:455-460 | the new state is SetStitch of the old one; the panel reports the clamped stitch with its command, then "stopped" if it is at the end |
| Simulator.DrawingPanel.Animate | lib/simulator.py:295-309 | the new state is one Tick of the old one by the given increment; a stopped panel is unchanged |
| Simulator.DrawingPanel.Go | lib/simulator.py:392-399 | the new state is Playback.Go of the old one; a start reports the stitch, then "started" |
| Simulator.DrawingPanel.StartIfNotAtEnd | lib/simulator.py:289-293 | the new state is Playback.StartIfNotAtEnd of the old one |
| Simulator.DrawingPanel.Forward | lib/simulator.py:447-449 | the new state is Playback.Forward of the old one |
| Simulator.DrawingPanel.Reverse | lib/simulator.py:451-453 | the new state is Playback.Reverse of the old one |
| Simulator.DrawingPanel.Restart | lib/simulator.py:462-468 | the new state is Playback.Restart of the old one |
| Simulator.DrawingPanel.OneStitchForward | lib/simulator.py:470-471 | the new state is SetStitch of the old one at the next stitch |
| Simulator.DrawingPanel.OneStitchBackward | lib/simulator.py:473-474 | the new state is SetStitch of the old one at the previous stitch |
| Simulator.DrawingPanel.SetSpeed | lib/simulator.py:444-445 | the panel's speed becomes the given one |
| Simulator.DrawingPanel.ParseStitchPlan | lib/simulator.py:407-442 | the nested loop leaves pens, segments and commands equal to the index of the plan (PlanPens, PlanSegments, PlanCommands) |
| Simulator.DrawingPanel.ParseColorBlock | lib/simulator.py:414-442 | one block appends its closed segments, its trailing open segment if non-empty, one pen per segment and one command per stitch |
| Simulator.DrawingPanel.PrepareLoad | lib/simulator.py:358-367 | stitch 1, direction +1, the provider's count, the control panel's stitch count and chosen speed (also given to the drawing panel), and the index of the plan |
| Simulator.DrawingPanel.StartLoaded | lib/simulator.py:368-370 | stores stitch 0, clamped to 1, marks the panel loaded and goes; the log gains stitch 1 with its command, "stopped" on a one-stitch plan, then, unless the panel was already running and not at the end, the reports of go's tick and "started" |
| Simulator.DrawingPanel.StoreFirstStitch | lib/simulator.py:368 | set_current_stitch(0) on the new index stores stitch 1, reports it with its command, and stops and reports "stopped" exactly on a one-stitch plan |
| Simulator.DrawingPanel.Load | lib/simulator.py:357-370 | after a load the index is the plan's, the panel is loaded, the control panel is still linked to it with its count and speed chosen for the plan, and the state is go applied to stitch 1 going forward; the notice log is stated in full: stitch 1 with its command, "stopped" on a one-stitch plan, then go's tick reports and "started" unless the panel was already running and not at the end |
| Simulator.DrawingPanel.Paint | lib/simulator.py:312-343 | nothing is drawn before the plan is loaded; after it, the polylines and marker of `Select` at the current stitch, and the marker is the position of the current stitch of the plan |
| Simulator.ControlPanel.constructor | lib/simulator.py:31-35 | a new control panel has no drawing panel, 1 stitch and speed 1 |
| Simulator.ControlPanel.SetDrawingPanel | lib/simulator.py:120-122 | the drawing panel is linked and receives the current speed |
| Simulator.ControlPanel.SetSpeed | lib/simulator.py:159-164 | the speed becomes SpeedFor(v) and is handed to the drawing panel, if there is one, changing nothing else of it |
| Simulator.ControlPanel.ChooseSpeed | lib/simulator.py:133-137 | the speed becomes ChosenSpeed of the stitch count, target duration and stitches per second |
| Simulator.ControlPanel.SetNumStitches | lib/simulator.py:124-131 | the stitch count becomes PanelStitchCount(n), and the speed is chosen for it |
| Simulator.ControlPanel.AnimationSlowDown | lib/simulator.py:192-194 | the speed is halved, rounding down, and never drops below 1 |
| Simulator.ControlPanel.AnimationSpeedUp | lib/simulator.py:196-198 | the speed is doubled |

## Left out

- Widgets, sizers, labels, the accelerator table and slider/number-box syncing (`update_speed_text`, `on_slider`, `on_stitch_box`, and the label and slider updates of `on_current_stitch`, `on_start` and `on_stop`) are user-interface code. The calls into them are recorded only as entries of the ghost `notices` log.
- The control panel's thin delegations to the drawing panel (`animation_forward`, `animation_reverse`, `animation_pause`, `animation_start`, `on_pause_start_button`, `animation_one_stitch_*`, `animation_restart`, `animation_quit`) and its display-only `direction` and `current_stitch` fields are not modelled separately. The drawing panel methods they call are.
- `on_direction_button` re-applies the current direction; it is user-interface code and is not modelled.
- Zoom-to-fit, wheel zoom, drag pan and the crosshair's screen transform use floating point and `wx` affine matrices. Positions are kept untransformed.
- Pen creation and `PIXEL_DENSITY` scaling with the bounding-box offset are left out. A pen holds only its colour, and a point is the stitch's integer position.
- Timers and frame timing (`wx.CallLater`, `time.time()`, `last_frame_duration` and the float frame-time computation in `animate`) are left out. The float frame-time computation is not modelled, so the tick's stitch increment is a natural-number parameter and the model claims no bound on it.
- Before the first load, `num_stitches` and `commands` do not exist in the source, and reading either raises AttributeError. The model gives them the placeholder values 0 and `[None]` and does not model the exception.
  - Calls that raise before a load: `set_current_stitch` and `one_stitch_*` always (they index `commands`); `clamp_current_stitch` on a stitch of at least 1; `stop_if_at_end` and `start_if_not_at_end` in direction 1; `forward`, after it has set the direction to 1; `restart` in direction -1. The model's `SetCurrentStitch`, `OneStitchForward` and `OneStitchBackward` require an index. `Forward` sets the direction to 1 and then changes nothing more, and `Restart` in direction -1 stores stitch 0.
  - Calls that run before a load, in the source and in the model alike: `go` returns at once; `stop` clears the animating flag and reports; `reverse` sets the direction to -1 and goes no further, since the stitch is at most 1; `restart` in direction 1 stores stitch 1 and its `go` returns at once; `animate` returns because the panel is stopped.
- Python floats (`set_speed` inputs, the target duration, stitches per second) are modelled as exact reals, so rounding in `/ 2.0`, `* 2.0` and `num_stitches / target_duration` is not modelled.
- The window and frame wrappers (`SimulatorPanel`, `EmbroiderySimulator`) only delegate, and `clear` only clears the screen.

=== FILE: options.dfy ===
module Options {
  /** A value that may be absent, as Python's None. */
  datatype Option<T> = None | Some(value: T)
}

=== FILE: playback.dfy ===
/**
 * The playback state machine of the drawing panel, as transitions on the triple
 * (current stitch, direction, animating). The panel's methods are proved to follow them.
 */
module Playback {

  datatype PlayState = PlayState(current: int, direction: int, animating: bool)

  predicate ValidDirection(d: int)
  {
    d == 1 || d == -1
  }

  function Dist(a: int, b: int): nat
  {
    if a >= b then a - b else b - a
  }

  /**
   * The stored stitch for a requested one: raised to 1 if below 1, else lowered to numStitches
   * if above it. For numStitches >= 1 this is the point of [1, numStitches] nearest to n.
   */
  function Clamp(n: int, numStitches: int): (r: int)
    ensures numStitches >= 1 ==> 1 <= r <= numStitches
    ensures numStitches >= 1 ==> forall m :: 1 <= m <= numStitches ==> Dist(r, n) <= Dist(m, n)
  {
    if n < 1 then 1 else if n > numStitches then numStitches else n
  }

  /** Clamping an in-range stitch keeps it, so clamping twice is clamping once. */
  lemma ClampIdempotent(n: int, numStitches: int)
    requires numStitches >= 1
    ensures Clamp(Clamp(n, numStitches), numStitches) == Clamp(n, numStitches)
    ensures Clamp(n, numStitches) == n <==> 1 <= n <= numStitches
  {
  }

  /** With no stitches the clamp leaves the range it is meant to enforce. */
  lemma ClampWithoutStitches()
    ensures Clamp(0, 0) == 1 && Clamp(Clamp(0, 0), 0) == 0
  {
  }

  /** The stitch is the last one in the direction of travel. */
  predicate AtEnd(direction: int, current: int, numStitches: int)
  {
    (direction == -1 && current == 1) || (direction == 1 && current == numStitches)
  }

  /** There is still a stitch to move to in the direction of travel. */
  predicate HasRoom(direction: int, current: int, numStitches: int)
  {
    (direction == -1 && current > 1) || (direction == 1 && current < numStitches)
  }

  /** Inside the range, the start test and the stop test are exact opposites. */
  lemma RoomIffNotAtEnd(direction: int, current: int, numStitches: int)
    requires ValidDirection(direction) && 1 <= current <= numStitches
    ensures HasRoom(direction, current, numStitches) <==> !AtEnd(direction, current, numStitches)
  {
  }

  /** Storing stitch n: clamp first, then stop if the clamped stitch is at the end. */
  function SetStitch(p: PlayState, n: int, numStitches: int): PlayState
  {
    var c := Clamp(n, numStitches);
    PlayState(c, p.direction, p.animating && !AtEnd(p.direction, c, numStitches))
  }

  /**
   * Setting a stitch lands in range, keeps the direction, and stops the animation exactly
   * when the clamped stitch is the end in the direction of travel.
   */
  lemma SetStitchMeaning(p: PlayState, n: int, numStitches: int)
    requires ValidDirection(p.direction) && numStitches >= 1
    ensures var q := SetStitch(p, n, numStitches);
      && 1 <= q.current <= numStitches
      && q.direction == p.direction
      && (q.animating <==> p.animating && !((p.direction == 1 && q.current == numStitches) ||
                                           (p.direction == -1 && q.current == 1)))
  {
  }

  /** Setting the same stitch twice is the same as setting it once. */
  lemma SetStitchIdempotent(p: PlayState, n: int, numStitches: int)
    requires numStitches >= 1
    ensures SetStitch(SetStitch(p, n, numStitches), n, numStitches) == SetStitch(p, n, numStitches)
  {
    ClampIdempotent(n, numStitches);
  }

  /** One animation tick: move by increment in the direction of travel, if animating. */
  function Tick(p: PlayState, increment: nat, numStitches: int): PlayState
  {
    if !p.animating then p else SetStitch(p, p.current + p.direction * increment, numStitches)
  }

  /** A run of ticks, one per increment. */
  function Run(p: PlayState, increments: seq<nat>, numStitches: int): PlayState
  {
    if increments == [] then p
    else Tick(Run(p, increments[..|increments| - 1], numStitches), increments[|increments| - 1], numStitches)
  }

  function Sum(s: seq<nat>): nat
  {
    if s == [] then 0 else Sum(s[..|s| - 1]) + s[|s| - 1]
  }

  /**
   * Ticking from an animating, in-range state advances to the clamp of the total distance
   * and keeps animating until the end in the direction of travel is reached, where it stops
   * and stays: playback neither wraps nor overshoots.
   */
  lemma {:induction false} RunClamps(p: PlayState, increments: seq<nat>, numStitches: int)
    requires ValidDirection(p.direction) && 1 <= p.current <= numStitches
    requires p.animating && |increments| > 0
    ensures var q := Run(p, increments, numStitches);
      && q.direction == p.direction
      && q.current == Clamp(p.current + p.direction * Sum(increments), numStitches)
      && (q.animating <==> !AtEnd(p.direction, q.current, numStitches))
    decreases |increments|
  {
    var init := increments[..|increments| - 1];
    var inc := increments[|increments| - 1];
    var d := p.direction;
    if init == [] {
      assert Sum(increments) == inc;
    } else {
      RunClamps(p, init, numStitches);
      var q := Run(p, init, numStitches);
      var target := p.current + d * Sum(init);
      assert q.current == Clamp(target, numStitches);
      assert p.current + d * Sum(increments) == target + d * inc;
      if !q.animating {
        // stopped at the end in direction d: the further move clamps to the same end
        assert AtEnd(d, q.current, numStitches);
        if d == 1 {
          assert target >= numStitches;
        } else {
          assert target <= 1;
        }
      } else {
        assert Clamp(q.current + d * inc, numStitches) == Clamp(target + d * inc, numStitches);
      }
    }
  }

  /** go(): nothing unless loaded and stopped; otherwise start animating and tick once. */
  function Go(p: PlayState, loaded: bool, increment: nat, numStitches: int): PlayState
  {
    if !loaded || p.animating then p
    else Tick(PlayState(p.current, p.direction, true), increment, numStitches)
  }

  function StartIfNotAtEnd(p: PlayState, loaded: bool, increment: nat, numStitches: int): PlayState
  {
    if HasRoom(p.direction, p.current, numStitches) then Go(p, loaded, increment, numStitches) else p
  }

  function Forward(p: PlayState, loaded: bool, increment: nat, numStitches: int): PlayState
  {
    StartIfNotAtEnd(PlayState(p.current, 1, p.animating), loaded, increment, numStitches)
  }

  function Reverse(p: PlayState, loaded: bool, increment: nat, numStitches: int): PlayState
  {
    StartIfNotAtEnd(PlayState(p.current, -1, p.animating), loaded, increment, numStitches)
  }

  /** restart(): jump to the first stitch of the direction of travel, unclamped, then go(). */
  function Restart(p: PlayState, loaded: bool, increment: nat, numStitches: int): PlayState
  {
    var start := if p.direction == 1 then 1 else if p.direction == -1 then numStitches else p.current;
    Go(PlayState(start, p.direction, p.animating), loaded, increment, numStitches)
  }

  /**
   * A stopped, loaded machine that goes ticks once from where it is and is left animating
   * unless that tick reached the end; a running or unloaded one is left as it is.
   */
  lemma GoMeaning(p: PlayState, loaded: bool, increment: nat, numStitches: int)
    requires ValidDirection(p.direction) && numStitches >= 1
    ensures var q := Go(p, loaded, increment, numStitches);
      && (!loaded || p.animating ==> q == p)
      && (loaded && !p.animating ==>
            q.direction == p.direction &&
            q.current == Clamp(p.current + p.direction * increment, numStitches) &&
            (q.animating <==> !AtEnd(p.direction, q.current, numStitches)))
  {
  }

  /**
   * forward() and reverse() set the direction; at the end in the new direction they leave
   * the stitch and the animating flag alone, and with room they behave as go().
   */
  lemma ForwardReverseMeaning(p: PlayState, loaded: bool, increment: nat, numStitches: int)
    requires 1 <= p.current <= numStitches
    ensures var f := Forward(p, loaded, increment, numStitches);
      && f.direction == 1
      && (p.current == numStitches ==> f == PlayState(p.current, 1, p.animating))
      && (p.current < numStitches ==> f == Go(PlayState(p.current, 1, p.animating), loaded, increment, numStitches))
    ensures var r := Reverse(p, loaded, increment, numStitches);
      && r.direction == -1
      && (p.current == 1 ==> r == PlayState(p.current, -1, p.animating))
      && (p.current > 1 ==> r == Go(PlayState(p.current, -1, p.animating), loaded, increment, numStitches))
  {
  }

  /**
   * Stopped at the last stitch, forward() changes nothing, and reverse() right after it
   * ticks back by the increment; the animation keeps running only when that tick stays
   * short of stitch 1, and otherwise stops there at once.
   */
  lemma ReverseAfterForwardAtEnd(current: int, increment: nat, numStitches: int)
    requires numStitches >= 2 && current == numStitches
    ensures var p := PlayState(current, 1, false);
      var f := Forward(p, true, increment, numStitches);
      && f == p
      && Reverse(f, true, increment, numStitches) ==
         PlayState(Clamp(numStitches - increment, numStitches), -1, numStitches - increment > 1)
  {
  }

  /**
   * restart() from a stopped machine starts at stitch 1 (forward) or at the last stitch
   * (reverse) and ticks once from there; on a running machine it only moves the stitch.
   */
  lemma RestartMeaning(p: PlayState, increment: nat, numStitches: int)
    requires ValidDirection(p.direction) && numStitches >= 1
    ensures var start := if p.direction == 1 then 1 else numStitches;
      var q := Restart(p, true, increment, numStitches);
      && (p.animating ==> q == PlayState(start, p.direction, true))
      && (!p.animating ==>
            q.current == Clamp(start + p.direction * increment, numStitches) &&
            (q.animating <==> !AtEnd(p.direction, q.current, numStitches)))
  {
  }
}

=== FILE: render.dfy ===
/**
 * The segment walk of a paint event: given the current stitch c, the segments whose
 * running count plus length stays below c are drawn whole, the next one is cut to the
 * stitches up to c, and the last stitch reached carries the crosshair marker.
 */
module Render {
  import opened Seqs
  import opened Options
  import opened StitchPlan

  datatype Polyline = Polyline(pen: Pen, points: seq<Point>)

  /**
   * What a paint pass selects: the number of leading segments drawn whole, how many points
   * of the next segment are kept when the walk stops inside the list (0 when it runs off
   * the end), and the crosshair point.
   */
  datatype Selection = Selection(whole: nat, cut: nat, marker: Option<Point>)

  predicate NonEmptySegments(segs: seq<seq<Point>>)
  {
    forall k :: 0 <= k < |segs| ==> segs[k] != []
  }

  function Min(a: int, b: int): int
  {
    if a <= b then a else b
  }

  /** The walk from segment i on, with count stitches already passed. */
  function SelectFrom(segs: seq<seq<Point>>, c: int, i: nat, count: int): (r: Selection)
    requires NonEmptySegments(segs) && i <= |segs| && count < c
    ensures i <= r.whole <= |segs|
    ensures r.whole < |segs| ==> 1 <= r.cut <= |segs[r.whole]|
    decreases |segs| - i
  {
    if i == |segs| then Selection(i, 0, if i == 0 then None else Some(Last(segs[i - 1])))
    else if count + |segs[i]| < c then SelectFrom(segs, c, i + 1, count + |segs[i]|)
    else Selection(i, c - count, Some(segs[i][c - count - 1]))
  }

  function Select(segs: seq<seq<Point>>, c: int): (r: Selection)
    requires NonEmptySegments(segs) && c >= 1
    ensures r.whole <= |segs|
    ensures r.whole < |segs| ==> 1 <= r.cut <= |segs[r.whole]|
  {
    SelectFrom(segs, c, 0, 0)
  }

  /** The polylines a selection draws: the whole segments, then the cut one if it has two points or more. */
  function DrawnLines(pens: seq<Pen>, segs: seq<seq<Point>>, s: Selection): seq<Polyline>
    requires |pens| == |segs| && s.whole <= |segs|
    requires s.whole < |segs| ==> s.cut <= |segs[s.whole]|
  {
    seq(s.whole, k requires 0 <= k < s.whole => Polyline(pens[k], segs[k])) +
    (if s.whole < |segs| && s.cut > 1 then [Polyline(pens[s.whole], segs[s.whole][..s.cut])] else [])
  }

  /** The number of stitches in segments 0 to k. */
  function StitchesThrough(segs: seq<seq<Point>>, k: nat): nat
    requires k < |segs|
  {
    |Concat(segs[..k + 1])|
  }

  lemma ConcatPrefixSnoc(segs: seq<seq<Point>>, i: nat)
    requires i < |segs|
    ensures Concat(segs[..i + 1]) == Concat(segs[..i]) + segs[i]
  {
    assert segs[..i + 1][..i] == segs[..i];
  }

  lemma {:induction false} SelectFromCounts(segs: seq<seq<Point>>, c: int, i: nat, count: int)
    requires NonEmptySegments(segs) && i <= |segs| && count < c
    requires count == |Concat(segs[..i])|
    requires forall k :: 0 <= k < i ==> StitchesThrough(segs, k) < c
    ensures var s := SelectFrom(segs, c, i, count);
      && (forall k :: 0 <= k < s.whole ==> StitchesThrough(segs, k) < c)
      && (s.whole < |segs| ==> c <= StitchesThrough(segs, s.whole) && s.cut == c - |Concat(segs[..s.whole])|)
      && (s.whole == |segs| ==> s.cut == 0 && |Concat(segs)| < c)
    decreases |segs| - i
  {
    if i == |segs| {
      assert segs[..i] == segs;
    } else {
      ConcatPrefixSnoc(segs, i);
      if count + |segs[i]| < c {
        SelectFromCounts(segs, c, i + 1, count + |segs[i]|);
      }
    }
  }

  /** Stopping after m points of segment w covers exactly the first c stitches. */
  lemma CoverInside(segs: seq<seq<Point>>, c: int, w: nat, m: nat)
    requires w < |segs| && 1 <= m <= |segs[w]| && c == |Concat(segs[..w])| + m
    ensures c <= |Concat(segs)|
    ensures Concat(segs[..w]) + segs[w][..m] == Concat(segs)[..c]
    ensures segs[w][m - 1] == Concat(segs)[c - 1]
  {
    ConcatAround(segs, w);
    var before := Concat(segs[..w]);
    var all := before + segs[w] + Concat(segs[w + 1..]);
    assert Concat(segs) == all;
    assert before + segs[w][..m] == all[..c];
    assert segs[w][m - 1] == all[c - 1];
  }

  /** The last point of the last segment is the last stitch of all. */
  lemma CoverEnd(segs: seq<seq<Point>>)
    requires NonEmptySegments(segs) && segs != []
    ensures |Concat(segs)| > 0 && Last(Last(segs)) == Last(Concat(segs))
  {
    var init := segs[..|segs| - 1];
    assert segs == init + [Last(segs)];
    ConcatSnoc(init, Last(segs));
  }

  lemma SelectFromCovers(segs: seq<seq<Point>>, c: int, i: nat, count: int)
    requires NonEmptySegments(segs) && i <= |segs| && count < c
    requires count == |Concat(segs[..i])|
    requires forall k :: 0 <= k < i ==> StitchesThrough(segs, k) < c
    ensures var s := SelectFrom(segs, c, i, count);
      var n := |Concat(segs)|;
      && Concat(segs[..s.whole]) + (if s.whole < |segs| then segs[s.whole][..s.cut] else []) == Concat(segs)[..Min(c, n)]
      && s.marker == (if segs == [] then None else Some(Concat(segs)[Min(c, n) - 1]))
  {
    SelectFromCounts(segs, c, i, count);
    SelectFromStops(segs, c, i, count);
    var s := SelectFrom(segs, c, i, count);
    var w := s.whole;
    if w == |segs| {
      assert segs[..w] == segs;
      if segs != [] {
        CoverEnd(segs);
      }
    } else {
      CoverInside(segs, c, w, s.cut);
    }
  }

  /** Where the walk stops, the marker is the last point it reached. */
  lemma {:induction false} SelectFromStops(segs: seq<seq<Point>>, c: int, i: nat, count: int)
    requires NonEmptySegments(segs) && i <= |segs| && count < c
    ensures var s := SelectFrom(segs, c, i, count);
      && (s.whole == |segs| ==> s.marker == (if s.whole == 0 then None else Some(Last(segs[s.whole - 1]))))
      && (s.whole < |segs| ==> s.marker == Some(segs[s.whole][s.cut - 1]))
    decreases |segs| - i
  {
    if i < |segs| && count + |segs[i]| < c {
      SelectFromStops(segs, c, i + 1, count + |segs[i]|);
    }
  }

  /**
   * The meaning of the walk for c >= 1: segment k is drawn whole exactly when the stitches
   * up to its end number fewer than c; the walk stops in the first segment that reaches c,
   * keeping c minus the stitches before it (at least one point); together the pieces cover
   * the first min(c, total) stitches in order, and the marker is the last of them.
   */
  lemma SelectMeaning(segs: seq<seq<Point>>, c: int)
    requires NonEmptySegments(segs) && c >= 1
    ensures var s := Select(segs, c);
      var n := |Concat(segs)|;
      && (forall k :: 0 <= k < s.whole ==> StitchesThrough(segs, k) < c)
      && (s.whole < |segs| ==> c <= StitchesThrough(segs, s.whole) && s.cut == c - |Concat(segs[..s.whole])|)
      && (s.whole == |segs| ==> s.cut == 0 && n < c)
      && Concat(segs[..s.whole]) + (if s.whole < |segs| then segs[s.whole][..s.cut] else []) == Concat(segs)[..Min(c, n)]
      && s.marker == (if segs == [] then None else Some(Concat(segs)[Min(c, n) - 1]))
  {
    assert segs[..0] == [];
    SelectFromCounts(segs, c, 0, 0);
    SelectFromCovers(segs, c, 0, 0);
  }

  /** The stitch count through segment k grows with k. */
  lemma {:induction false} StitchesThroughMono(segs: seq<seq<Point>>, j: nat, k: nat)
    requires j <= k < |segs|
    ensures StitchesThrough(segs, j) <= StitchesThrough(segs, k)
    decreases k
  {
    if j < k {
      StitchesThroughMono(segs, j, k - 1);
      ConcatPrefixSnoc(segs, k);
      assert segs[..k] == segs[..(k - 1) + 1];
    }
  }

  /** Segment k is drawn whole exactly when the stitches through its end number fewer than c. */
  lemma SelectIff(segs: seq<seq<Point>>, c: int, k: nat)
    requires NonEmptySegments(segs) && c >= 1 && k < |segs|
    ensures k < Select(segs, c).whole <==> StitchesThrough(segs, k) < c
  {
    SelectMeaning(segs, c);
    var w := Select(segs, c).whole;
    if w < k {
      StitchesThroughMono(segs, w, k);
    }
  }

  /**
   * Segments of 3, 4 and 2 points at stitch 5: the first is drawn whole, the second is cut
   * to its first 2 points, the third is not reached, and the marker is the fifth point.
   */
  lemma SelectExample(p: seq<Point>)
    requires |p| == 9
    ensures var segs := [p[..3], p[3..7], p[7..]];
      var s := Select(segs, 5);
      && Concat(segs) == p
      && s == Selection(1, 2, Some(p[4]))
  {
    var segs := [p[..3], p[3..7], p[7..]];
    assert NonEmptySegments(segs);
    assert SelectFrom(segs, 5, 1, 3) == Selection(1, 2, Some(p[4]));
    assert Concat(segs) == p by {
      assert segs[..2][..1] == [p[..3]];
      ConcatSingle(p[..3]);
      ConcatPrefixSnoc(segs, 1);
      ConcatPrefixSnoc(segs, 2);
      assert segs[..3] == segs;
    }
  }

  /** Over the segments of a plan, the crosshair of stitch c sits on the position of stitch c. */
  lemma MarkerIsStitch(plan: seq<ColorBlock>, c: int)
    requires 1 <= c <= NumStitches(plan)
    ensures NonEmptySegments(PlanSegments(plan))
    ensures Select(PlanSegments(plan), c).marker == Some(Flatten(plan)[c - 1].Position())
  {
    SegmentsNonEmpty(plan);
    SegmentsTracePlan(plan);
    var segs := PlanSegments(plan);
    var all := Concat(segs);
    assert all == Trace(Flatten(plan)) && |all| == NumStitches(plan);
    assert segs != [] by {
      assert |all| >= 1;
    }
    MarkerOfSelect(segs, c);
    assert all[c - 1] == Flatten(plan)[c - 1].Position();
  }

  /** When c is within the stitches, the marker of the walk is stitch c. */
  lemma MarkerOfSelect(segs: seq<seq<Point>>, c: int)
    requires NonEmptySegments(segs) && segs != [] && 1 <= c <= |Concat(segs)|
    ensures Select(segs, c).marker == Some(Concat(segs)[c - 1])
  {
    SelectMeaning(segs, c);
    assert Min(c, |Concat(segs)|) == c;
  }

  /**
   * The walk of a paint event over the pens and segments of the index: it returns the
   * polylines it draws and the crosshair point.
   */
  method PaintWalk(pens: seq<Pen>, segs: seq<seq<Point>>, current: int) returns (lines: seq<Polyline>, marker: Option<Point>)
    requires |pens| == |segs| && NonEmptySegments(segs) && current >= 1
    ensures lines == DrawnLines(pens, segs, Select(segs, current))
    ensures marker == Select(segs, current).marker
  {
    var stitch := 0;
    var lastStitch: Option<Point> := None;
    lines := [];
    var i := 0;
    while i < |segs|
      invariant 0 <= i <= |segs|
      invariant stitch == |Concat(segs[..i])| && stitch < current
      invariant SelectFrom(segs, current, i, stitch) == Select(segs, current)
      invariant lines == seq(i, k requires 0 <= k < i => Polyline(pens[k], segs[k]))
      invariant lastStitch == if i == 0 then None else Some(Last(segs[i - 1]))
    {
      var stitches := segs[i];
      if stitch + |stitches| < current {
        ConcatPrefixSnoc(segs, i);
        stitch := stitch + |stitches|;
        lines := lines + [Polyline(pens[i], stitches)];
        lastStitch := Some(Last(stitches));
      } else {
        stitches := stitches[..current - stitch];
        if |stitches| > 1 {
          lines := lines + [Polyline(pens[i], stitches)];
        }
        lastStitch := Some(Last(stitches));
        break;
      }
      i := i + 1;
    }
    marker := lastStitch;
  }
}

=== FILE: seqs.dfy ===
/** Small facts about sequences of sequences, shared by the stitch index and the render pass. */
module Seqs {

  function Last<T>(s: seq<T>): T
    requires |s| > 0
  {
    s[|s| - 1]
  }

  /** Flattening, defined on the last element so that it grows the way a loop appends. */
  function Concat<T>(ss: seq<seq<T>>): seq<T>
  {
    if ss == [] then [] else Concat(ss[..|ss| - 1]) + ss[|ss| - 1]
  }

  lemma ConcatSnoc<T>(ss: seq<seq<T>>, x: seq<T>)
    ensures Concat(ss + [x]) == Concat(ss) + x
  {
    assert (ss + [x])[..|ss|] == ss;
  }

  lemma {:induction false} ConcatAppend<T>(a: seq<seq<T>>, b: seq<seq<T>>)
    ensures Concat(a + b) == Concat(a) + Concat(b)
    decreases |b|
  {
    if b == [] {
      assert a + b == a;
    } else {
      var init := b[..|b| - 1];
      assert a + b == (a + init) + [Last(b)];
      assert b == init + [Last(b)];
      ConcatSnoc(a + init, Last(b));
      ConcatSnoc(init, Last(b));
      ConcatAppend(a, init);
    }
  }

  lemma ConcatSingle<T>(x: seq<T>)
    ensures Concat([x]) == x
  {
    assert [x][..0] == [];
  }

  lemma TakeDrop<T>(s: seq<T>, i: nat)
    requires i <= |s|
    ensures s[..i] + s[i..] == s
  {
  }

  /** Concat of a sequence is its first element followed by the Concat of the rest. */
  lemma ConcatFront<T>(ss: seq<seq<T>>)
    requires |ss| > 0
    ensures Concat(ss) == ss[0] + Concat(ss[1..])
  {
    TakeDrop(ss, 1);
    assert ss[..1] == [ss[0]];
    ConcatAppend(ss[..1], ss[1..]);
    ConcatSingle(ss[0]);
  }

  lemma TakeSnoc<T>(s: seq<T>, i: nat)
    requires i < |s|
    ensures s[..i + 1] == s[..i] + [s[i]]
  {
  }

  /** The elements before index i, element i and those after it, concatenated, give everything. */
  lemma ConcatAround<T>(ss: seq<seq<T>>, i: nat)
    requires i < |ss|
    ensures Concat(ss) == Concat(ss[..i]) + ss[i] + Concat(ss[i + 1..])
  {
    TakeSnoc(ss, i);
    ConcatSnoc(ss[..i], ss[i]);
    TakeDrop(ss, i + 1);
    ConcatAppend(ss[..i + 1], ss[i + 1..]);
  }

  /** A sequence of n copies of x. */
  function Repeat<T>(x: T, n: nat): (r: seq<T>)
    ensures |r| == n
    ensures forall k :: 0 <= k < n ==> r[k] == x
  {
    seq(n, _ => x)
  }
}

=== FILE: simulator.dfy ===
/**
 * The simulator's two panels as objects. The drawing panel owns the stitch index and the
 * playback fields and is proved to follow the transitions of module Playback; the control
 * panel owns the speed and the slider's stitch count and pushes the speed to the drawing
 * panel. Calls from the drawing panel back to the control panel that only update labels
 * and the slider are recorded as notices.
 */
module Simulator {
  import opened Seqs
  import opened Options
  import opened StitchPlan
  import opened Render
  import opened Speed
  import opened Playback

  /** A notification to the control panel: the stitch and its command, or a start or stop. */
  datatype Notice = StitchChanged(stitch: int, command: Option<Command>) | Started | Stopped

  /** The shape facts of a plan's index that the drawing panel relies on. */
  lemma IndexShape(plan: seq<ColorBlock>)
    ensures |PlanCommands(plan)| == NumStitches(plan) + 1
    ensures |PlanPens(plan)| == |PlanSegments(plan)|
    ensures NonEmptySegments(PlanSegments(plan))
  {
    PlanIndexWellFormed(plan);
  }

  class DrawingPanel {
    const controlPanel: ControlPanel
    var animating: bool
    var direction: int
    var currentStitch: int
    var loaded: bool
    /** Desired playback speed in stitches per second. */
    var speed: int
    var numStitches: int
    var pens: seq<Pen>
    var stitchBlocks: seq<seq<Point>>
    var commands: seq<Option<Command>>
    /** The plan last parsed into the index. */
    ghost var plan: seq<ColorBlock>
    ghost var notices: seq<Notice>

    /** The index fields hold the index of the parsed plan, which has at least one stitch. */
    ghost predicate Indexed()
      reads this`numStitches, this`plan, this`pens, this`stitchBlocks, this`commands
    {
      && numStitches == NumStitches(plan) && numStitches >= 1
      && pens == PlanPens(plan) && stitchBlocks == PlanSegments(plan) && commands == PlanCommands(plan)
      && |commands| == numStitches + 1 && |pens| == |stitchBlocks| && NonEmptySegments(stitchBlocks)
    }

    ghost predicate Valid()
      reads this
    {
      && ValidDirection(direction)
      && (animating ==> loaded)
      && (loaded ==> Indexed() && 1 <= currentStitch <= numStitches)
    }

    function State(): PlayState
      reads this
    {
      PlayState(currentStitch, direction, animating)
    }

    /** Everything but the speed, for stating that setting the speed touches nothing else. */
    ghost function AllButSpeed(): (bool, int, int, bool, int, seq<Pen>, seq<seq<Point>>, seq<Option<Command>>, seq<ColorBlock>, seq<Notice>)
      reads this
    {
      (animating, direction, currentStitch, loaded, numStitches, pens, stitchBlocks, commands, plan, notices)
    }

    /** What set_current_stitch reports for the stitch it has just stored. */
    ghost function SetStitchNotices(): seq<Notice>
      reads this
      requires 0 <= currentStitch < |commands|
    {
      [StitchChanged(currentStitch, commands[currentStitch])] +
      (if AtEnd(direction, currentStitch, numStitches) then [Stopped] else [])
    }

    /** The panel before its plan is loaded; the source schedules the load on a timer. */
    constructor (controlPanel: ControlPanel)
      ensures Valid() && this.controlPanel == controlPanel
      ensures !animating && direction == 1 && currentStitch == 0 && !loaded && speed == 16
      ensures notices == []
    {
      this.controlPanel := controlPanel;
      animating := false;
      direction := 1;
      currentStitch := 0;
      loaded := false;
      speed := 16;
      numStitches := 0;
      pens := [];
      stitchBlocks := [];
      commands := [None];
      plan := [];
      notices := [];
    }

    method ClampCurrentStitch()
      modifies this`currentStitch
      ensures currentStitch == Clamp(old(currentStitch), numStitches)
    {
      if currentStitch < 1 {
        currentStitch := 1;
      } else if currentStitch > numStitches {
        currentStitch := numStitches;
      }
    }

    method Stop()
      modifies this`animating, this`notices
      ensures !animating && notices == old(notices) + [Stopped]
    {
      animating := false;
      notices := notices + [Stopped];
    }

    method StopIfAtEnd()
      modifies this`animating, this`notices
      ensures animating == (old(animating) && !AtEnd(direction, currentStitch, numStitches))
      ensures notices == old(notices) + if AtEnd(direction, currentStitch, numStitches) then [Stopped] else []
    {
      if direction == -1 && currentStitch == 1 {
        Stop();
      } else if direction == 1 && currentStitch == numStitches {
        Stop();
      }
    }

    method SetCurrentStitch(stitch: int)
      requires Valid() && Indexed()
      modifies this`currentStitch, this`animating, this`notices
      ensures Valid() && State() == SetStitch(old(State()), stitch, numStitches)
      ensures 1 <= currentStitch <= numStitches
      ensures notices == old(notices) + SetStitchNotices()
    {
      currentStitch := stitch;
      ClampCurrentStitch();
      notices := notices + [StitchChanged(currentStitch, commands[currentStitch])];
      StopIfAtEnd();
    }

    /**
     * One tick of the animation, moving increment stitches; the increment the source derives
     * from frame timing and the rescheduling on a timer are not modelled.
     */
    method Animate(increment: nat)
      requires Valid()
      modifies this`currentStitch, this`animating, this`notices
      ensures Valid() && State() == Tick(old(State()), increment, numStitches)
      ensures notices == if old(animating) then old(notices) + SetStitchNotices() else old(notices)
    {
      if !animating {
        return;
      }
      SetCurrentStitch(currentStitch + direction * increment);
    }

    method Go(increment: nat)
      requires Valid()
      modifies this`currentStitch, this`animating, this`notices
      ensures Valid() && State() == Playback.Go(old(State()), loaded, increment, numStitches)
      ensures notices == if loaded && !old(animating) then old(notices) + SetStitchNotices() + [Started]
                         else old(notices)
    {
      if !loaded {
        return;
      }
      if !animating {
        animating := true;
        Animate(increment);
        notices := notices + [Started];
      }
    }

    method StartIfNotAtEnd(increment: nat)
      requires Valid()
      modifies this`currentStitch, this`animating, this`notices
      ensures Valid() && State() == Playback.StartIfNotAtEnd(old(State()), loaded, increment, numStitches)
      ensures notices == if HasRoom(direction, old(currentStitch), numStitches) && loaded && !old(animating)
                         then old(notices) + SetStitchNotices() + [Started]
                         else old(notices)
    {
      if direction == -1 && currentStitch > 1 {
        Go(increment);
      } else if direction == 1 && currentStitch < numStitches {
        Go(increment);
      }
    }

    method Forward(increment: nat)
      requires Valid()
      modifies this`direction, this`currentStitch, this`animating, this`notices
      ensures Valid() && State() == Playback.Forward(old(State()), loaded, increment, numStitches)
      ensures notices == if old(currentStitch) < numStitches && loaded && !old(animating)
                         then old(notices) + SetStitchNotices() + [Started]
                         else old(notices)
    {
      direction := 1;
      StartIfNotAtEnd(increment);
    }

    method Reverse(increment: nat)
      requires Valid()
      modifies this`direction, this`currentStitch, this`animating, this`notices
      ensures Valid() && State() == Playback.Reverse(old(State()), loaded, increment, numStitches)
      ensures notices == if old(currentStitch) > 1 && loaded && !old(animating)
                         then old(notices) + SetStitchNotices() + [Started]
                         else old(notices)
    {
      direction := -1;
      StartIfNotAtEnd(increment);
    }

    method Restart(increment: nat)
      requires Valid()
      modifies this`currentStitch, this`animating, this`notices
      ensures Valid() && State() == Playback.Restart(old(State()), loaded, increment, numStitches)
      ensures notices == if loaded && !old(animating) then old(notices) + SetStitchNotices() + [Started]
                         else old(notices)
    {
      if direction == 1 {
        currentStitch := 1;
      } else if direction == -1 {
        currentStitch := numStitches;
      }
      Go(increment);
    }

    method OneStitchForward()
      requires Valid() && Indexed()
      modifies this`currentStitch, this`animating, this`notices
      ensures Valid() && State() == SetStitch(old(State()), old(currentStitch) + 1, numStitches)
      ensures notices == old(notices) + SetStitchNotices()
    {
      SetCurrentStitch(currentStitch + 1);
    }

    method OneStitchBackward()
      requires Valid() && Indexed()
      modifies this`currentStitch, this`animating, this`notices
      ensures Valid() && State() == SetStitch(old(State()), old(currentStitch) - 1, numStitches)
      ensures notices == old(notices) + SetStitchNotices()
    {
      SetCurrentStitch(currentStitch - 1);
    }

    method SetSpeed(speed: int)
      modifies this`speed
      ensures this.speed == speed
    {
      this.speed := speed;
    }

    /** Builds the command, segment and pen lists of the stitch index, block by block. */
    method ParseStitchPlan(stitchPlan: seq<ColorBlock>)
      modifies this`pens, this`stitchBlocks, this`commands
      ensures pens == PlanPens(stitchPlan)
      ensures stitchBlocks == PlanSegments(stitchPlan)
      ensures commands == PlanCommands(stitchPlan)
    {
      pens := [];
      stitchBlocks := [];
      // there is no stitch 0, so index 0 holds a placeholder
      commands := [None];
      var i := 0;
      while i < |stitchPlan|
        invariant 0 <= i <= |stitchPlan|
        invariant pens == PlanPens(stitchPlan[..i])
        invariant stitchBlocks == PlanSegments(stitchPlan[..i])
        invariant commands == PlanCommands(stitchPlan[..i])
      {
        PlanStep(stitchPlan, i);
        ParseColorBlock(stitchPlan[i]);
        i := i + 1;
      }
      assert stitchPlan[..i] == stitchPlan;
    }

    /** Appends one colour block's commands, segments and pens to the index. */
    method ParseColorBlock(colorBlock: ColorBlock)
      modifies this`pens, this`stitchBlocks, this`commands
      ensures var sc := Scan(colorBlock.stitches);
        var pen := PenFor(colorBlock.color);
        && stitchBlocks == old(stitchBlocks) + Traces(sc.closed) + (if sc.open == [] then [] else [Trace(sc.open)])
        && pens == old(pens) + Repeat(pen, |sc.closed|) + (if sc.open == [] then [] else [pen])
        && commands == old(commands) + Commands(colorBlock.stitches)
    {
      var pen := PenFor(colorBlock.color);
      var stitches := colorBlock.stitches;
      var stitchBlock: seq<Point> := [];
      ghost var pens0, blocks0, commands0 := pens, stitchBlocks, commands;
      ghost var sc := Scan([]);
      var j := 0;
      while j < |stitches|
        invariant 0 <= j <= |stitches|
        invariant sc == Scan(stitches[..j])
        invariant stitchBlock == Trace(sc.open)
        invariant stitchBlocks == blocks0 + Traces(sc.closed)
        invariant pens == pens0 + Repeat(pen, |sc.closed|)
        invariant commands == commands0 + Commands(stitches[..j])
      {
        var stitch := stitches[j];
        ScanStep(stitches, j);
        ghost var n := |sc.closed|;
        stitchBlock := stitchBlock + [stitch.Position()];
        commands := commands + [Some(Classify(stitch))];
        if EndsSegment(stitch) {
          RepeatSnoc(pen, n);
          pens := pens + [pen];
          stitchBlocks := stitchBlocks + [stitchBlock];
          stitchBlock := [];
        }
        sc := Scan(stitches[..j + 1]);
        j := j + 1;
      }
      assert stitches[..j] == stitches;
      if stitchBlock != [] {
        pens := pens + [pen];
        stitchBlocks := stitchBlocks + [stitchBlock];
      }
    }

    /**
     * Loads a plan whose provider reports providerCount stitches: resets the position and
     * direction, lets the control panel choose the speed, builds the index, stores stitch 0
     * (clamped to 1), marks the panel loaded and goes.
     */
    method Load(stitchPlan: seq<ColorBlock>, providerCount: int, increment: nat)
      requires Valid() && controlPanel.drawingPanel == this
      requires providerCount == NumStitches(stitchPlan) && providerCount >= 1
      modifies this, controlPanel
      ensures Valid() && Indexed() && loaded && plan == stitchPlan && numStitches == providerCount
      ensures controlPanel.drawingPanel == this
      ensures controlPanel.Configured(providerCount)
      ensures speed == controlPanel.speed
      ensures State() == Playback.Go(SetStitch(PlayState(1, 1, old(animating)), 0, providerCount), true, increment, providerCount)
      ensures notices == old(notices) + [StitchChanged(1, commands[1])] + (if AtEnd(1, 1, numStitches) then [Stopped] else []) +
                         (if old(animating) && !AtEnd(1, 1, numStitches) then [] else SetStitchNotices() + [Started])
    {
      PrepareLoad(stitchPlan, providerCount);
      StartLoaded(increment);
    }

    /** The part of a load after the index is built: store stitch 0, mark loaded, go. */
    method StartLoaded(increment: nat)
      requires Valid() && Indexed() && currentStitch == 1 && direction == 1
      modifies this`currentStitch, this`animating, this`notices, this`loaded
      ensures Valid() && loaded
      ensures State() == Playback.Go(SetStitch(old(State()), 0, numStitches), true, increment, numStitches)
      ensures notices == old(notices) + [StitchChanged(1, commands[1])] + (if AtEnd(1, 1, numStitches) then [Stopped] else []) +
                         (if old(animating) && !AtEnd(1, 1, numStitches) then [] else SetStitchNotices() + [Started])
    {
      StoreFirstStitch();
      loaded := true;
      Go(increment);
    }

    /** set_current_stitch(0) on a freshly indexed panel: stitch 1 is stored and reported. */
    method StoreFirstStitch()
      requires Valid() && Indexed() && currentStitch == 1 && direction == 1
      modifies this`currentStitch, this`animating, this`notices
      ensures Valid() && currentStitch == 1
      ensures State() == SetStitch(old(State()), 0, numStitches)
      ensures animating == (old(animating) && !AtEnd(1, 1, numStitches))
      ensures notices == old(notices) + [StitchChanged(1, commands[1])] + (if AtEnd(1, 1, numStitches) then [Stopped] else [])
    {
      SetCurrentStitch(0);
    }

    /** The part of a load before the first stitch is stored: position, speed and index. */
    method PrepareLoad(stitchPlan: seq<ColorBlock>, providerCount: int)
      requires Valid() && controlPanel.drawingPanel == this
      requires providerCount == NumStitches(stitchPlan) && providerCount >= 1
      modifies this, controlPanel
      ensures Valid() && Indexed() && plan == stitchPlan && numStitches == providerCount
      ensures State() == PlayState(1, 1, old(animating)) && loaded == old(loaded) && notices == old(notices)
      ensures controlPanel.drawingPanel == this
      ensures controlPanel.Configured(providerCount)
      ensures speed == controlPanel.speed
    {
      currentStitch := 1;
      direction := 1;
      numStitches := providerCount;
      controlPanel.SetNumStitches(numStitches);
      ParseStitchPlan(stitchPlan);
      plan := stitchPlan;
      IndexShape(stitchPlan);
    }

    /** The segment walk of a paint event; nothing is drawn before the plan is loaded. */
    method Paint() returns (lines: seq<Polyline>, marker: Option<Point>)
      requires Valid()
      ensures !loaded ==> lines == [] && marker == None
      ensures loaded ==> lines == DrawnLines(pens, stitchBlocks, Select(stitchBlocks, currentStitch))
      ensures loaded ==> marker == Select(stitchBlocks, currentStitch).marker
      ensures loaded ==> marker == Some(Flatten(plan)[currentStitch - 1].Position())
    {
      if !loaded {
        return [], None;
      }
      lines, marker := PaintWalk(pens, stitchBlocks, currentStitch);
      MarkerIsStitch(plan, currentStitch);
    }
  }

  class ControlPanel {
    var drawingPanel: DrawingPanel?
    /** The stitch count of the slider and number box. */
    var numStitches: int
    var speed: int
    const stitchesPerSecond: real
    const targetDuration: Option<real>

    ghost predicate Valid()
      reads this
    {
      speed >= 1 && numStitches >= 1
    }

    /** The stitch count and speed set for a plan of n stitches. */
    ghost predicate Configured(n: int)
      reads this
    {
      numStitches == PanelStitchCount(n) && speed == ChosenSpeed(numStitches, targetDuration, stitchesPerSecond)
    }

    constructor (stitchesPerSecond: real, targetDuration: Option<real>)
      ensures Valid() && drawingPanel == null && numStitches == 1 && speed == 1
      ensures this.stitchesPerSecond == stitchesPerSecond && this.targetDuration == targetDuration
    {
      drawingPanel := null;
      numStitches := 1;
      speed := 1;
      this.stitchesPerSecond := stitchesPerSecond;
      this.targetDuration := targetDuration;
    }

    method SetDrawingPanel(dp: DrawingPanel)
      modifies this`drawingPanel, dp`speed
      ensures drawingPanel == dp && dp.speed == speed
    {
      drawingPanel := dp;
      dp.SetSpeed(speed);
    }

    /** Stores int(max(v, 1)) and hands it to the drawing panel, if there is one. */
    method SetSpeed(v: real)
      modifies this`speed, drawingPanel
      ensures speed == SpeedFor(v) && Valid() == old(numStitches >= 1)
      ensures drawingPanel != null ==> drawingPanel.speed == speed
      ensures drawingPanel != null ==> drawingPanel.AllButSpeed() == old(drawingPanel.AllButSpeed())
    {
      speed := Trunc(if v >= 1.0 then v else 1.0);
      if drawingPanel != null {
        drawingPanel.SetSpeed(speed);
      }
    }

    method ChooseSpeed()
      modifies this`speed, drawingPanel
      ensures speed == ChosenSpeed(numStitches, targetDuration, stitchesPerSecond)
      ensures drawingPanel != null ==> drawingPanel.speed == speed
      ensures drawingPanel != null ==> drawingPanel.AllButSpeed() == old(drawingPanel.AllButSpeed())
    {
      if targetDuration.Some? && targetDuration.value != 0.0 {
        SetSpeed(Trunc(numStitches as real / targetDuration.value) as real);
      } else {
        SetSpeed(stitchesPerSecond);
      }
    }

    method SetNumStitches(n: int)
      modifies this`numStitches, this`speed, drawingPanel
      ensures Valid() && Configured(n)
      ensures drawingPanel != null ==> drawingPanel.speed == speed
      ensures drawingPanel != null ==> drawingPanel.AllButSpeed() == old(drawingPanel.AllButSpeed())
    {
      var count := n;
      if count < 2 {
        // the slider and the number box need a range of at least two stitches
        count := 2;
      }
      numStitches := count;
      ChooseSpeed();
    }

    method AnimationSlowDown()
      requires Valid()
      modifies this`speed, drawingPanel
      ensures Valid() && speed == if old(speed) >= 2 then old(speed) / 2 else 1
      ensures drawingPanel != null ==> drawingPanel.speed == speed
      ensures drawingPanel != null ==> drawingPanel.AllButSpeed() == old(drawingPanel.AllButSpeed())
    {
      SlowDownHalves(speed);
      SetSpeed(speed as real / 2.0);
    }

    method AnimationSpeedUp()
      requires Valid()
      modifies this`speed, drawingPanel
      ensures Valid() && speed == 2 * old(speed)
      ensures drawingPanel != null ==> drawingPanel.speed == speed
      ensures drawingPanel != null ==> drawingPanel.AllButSpeed() == old(drawingPanel.AllButSpeed())
    {
      SpeedUpDoubles(speed);
      SetSpeed(speed as real * 2.0);
    }
  }
}

=== FILE: speed.dfy ===
/**
 * The numeric rules of the control panel: the speed it stores and hands to the drawing
 * panel, halving and doubling it, and the stitch count it raises for its slider.
 * Python floats are modelled as exact reals.
 */
module Speed {
  import opened Options

  /** Python's int() of a float: rounds towards zero. */
  function Trunc(x: real): (r: int)
    ensures x >= 0.0 ==> r as real <= x < r as real + 1.0
    ensures x < 0.0 ==> r as real - 1.0 < x <= r as real
  {
    if x >= 0.0 then x.Floor else -((-x).Floor)
  }

  /** The speed set_speed stores for a requested value v: int(max(v, 1)). */
  function SpeedFor(v: real): (r: int)
    ensures r >= 1
    ensures v < 2.0 ==> r == 1
    ensures v >= 1.0 ==> r as real <= v < r as real + 1.0
  {
    Trunc(if v >= 1.0 then v else 1.0)
  }

  /** An integer speed is stored as it is when it is at least 1. */
  lemma SpeedForWhole(speed: int)
    requires speed >= 1
    ensures SpeedFor(speed as real) == speed
  {
  }

  /** Slowing down halves the speed, dropping any half, and never goes below 1. */
  lemma SlowDownHalves(speed: int)
    requires speed >= 1
    ensures SpeedFor(speed as real / 2.0) == if speed >= 2 then speed / 2 else 1
  {
    if speed >= 2 {
      var h := speed / 2;
      assert speed == 2 * h || speed == 2 * h + 1;
      assert h as real <= speed as real / 2.0 < h as real + 1.0;
    }
  }

  /** Speeding up doubles the speed. */
  lemma SpeedUpDoubles(speed: int)
    requires speed >= 1
    ensures SpeedFor(speed as real * 2.0) == 2 * speed
  {
  }

  /** The stitch count the control panel keeps: raised to 2 when below 2. */
  function PanelStitchCount(n: int): (r: int)
    ensures r >= 2 && r >= n
    ensures n >= 2 ==> r == n
    ensures n < 2 ==> r == 2
  {
    if n < 2 then 2 else n
  }

  /** A target duration counts when it is given and not zero (Python truthiness). */
  predicate HasTargetDuration(targetDuration: Option<real>)
  {
    targetDuration.Some? && targetDuration.value != 0.0
  }

  /**
   * choose_speed: with a target duration, the speed that plays the stitches in about that
   * many seconds; otherwise the configured stitches per second.
   */
  function ChosenSpeed(numStitches: int, targetDuration: Option<real>, stitchesPerSecond: real): (r: int)
    ensures r >= 1
    ensures !HasTargetDuration(targetDuration) ==> r == SpeedFor(stitchesPerSecond)
  {
    if HasTargetDuration(targetDuration) then
      SpeedFor(Trunc(numStitches as real / targetDuration.value) as real)
    else
      SpeedFor(stitchesPerSecond)
  }

  lemma MulStrict(a: real, b: real, d: real)
    requires a < b && d > 0.0
    ensures a * d < b * d
  {
    assert b * d - a * d == (b - a) * d;
    assert (b - a) * d > 0.0;
  }

  lemma MulMono(a: real, b: real, d: real)
    requires a <= b && d > 0.0
    ensures a * d <= b * d
  {
    assert b * d - a * d == (b - a) * d;
    assert (b - a) * d >= 0.0;
  }

  lemma DivMul(a: real, d: real)
    requires d != 0.0
    ensures (a / d) * d == a
  {
  }

  /** A quotient of a by d is at least 1 when a is at least the positive d. */
  lemma QuotientAtLeastOne(a: real, d: real)
    requires a >= d > 0.0
    ensures a / d >= 1.0
  {
  }

  lemma QuotientNonNegative(a: real, d: real)
    requires a >= 0.0 && d > 0.0
    ensures a / d >= 0.0
  {
  }

  /** A whole part t of the quotient q = a / d brackets a between t * d and (t + 1) * d. */
  lemma MulBounds(a: real, q: real, t: real, d: real)
    requires d > 0.0 && q * d == a && t <= q < t + 1.0
    ensures t * d <= a < (t + 1.0) * d
  {
    MulMono(t, q, d);
    var u := t + 1.0;
    MulStrict(q, u, d);
    assert a < u * d;
  }

  /** Truncating a non-negative quotient a / d gives the whole number of times d fits into a. */
  lemma TruncQuotient(a: real, d: real)
    requires a >= 0.0 && d > 0.0
    ensures Trunc(a / d) as real * d <= a < (Trunc(a / d) as real + 1.0) * d
  {
    DivMul(a, d);
    QuotientNonNegative(a, d);
    MulBounds(a, a / d, Trunc(a / d) as real, d);
  }

  /**
   * With a positive target duration of at most one second per stitch, playing the stitches
   * at the chosen speed takes at least the target duration, and one more stitch per second
   * would take less than it.
   */
  lemma ChosenSpeedMeetsDuration(numStitches: int, duration: real, stitchesPerSecond: real)
    requires duration > 0.0 && numStitches as real >= duration
    ensures var r := ChosenSpeed(numStitches, Some(duration), stitchesPerSecond);
      r as real * duration <= numStitches as real < (r as real + 1.0) * duration
  {
    var a := numStitches as real;
    QuotientAtLeastOne(a, duration);
    TruncQuotient(a, duration);
    var t := Trunc(a / duration);
    SpeedForWhole(t);
    assert ChosenSpeed(numStitches, Some(duration), stitchesPerSecond) == t;
  }

}

=== FILE: stitch_plan.dfy ===
/**
 * The stitch plan handed to the simulator and the stitch index built from it:
 * per-stitch command classification, segmentation of each colour block at trims,
 * stops and colour changes, and the pen of every segment.
 */
module StitchPlan {
  import opened Seqs
  import opened Options

  /** A position in design space, as kept in the segment lists. */
  datatype Point = Point(x: int, y: int)

  datatype Color = Rgb(r: int, g: int, b: int)

  /** The pen a segment is drawn with; only its colour is modelled. */
  datatype Pen = Pen(color: Color)

  function PenFor(c: Color): Pen
  {
    Pen(c)
  }

  datatype Stitch = Stitch(x: int, y: int, trim: bool, jump: bool, stop: bool, colorChange: bool)
  {
    function Position(): Point
    {
      Point(x, y)
    }
  }

  datatype ColorBlock = ColorBlock(color: Color, stitches: seq<Stitch>)

  /** The five command kinds; NormalStitch is the source's STITCH (code 0). */
  datatype Command = NormalStitch | Jump | Trim | Stop | ColorChange

  /** The commands whose flag is set on a stitch. */
  function Flags(s: Stitch): (f: set<Command>)
    ensures NormalStitch !in f
  {
    (if s.trim then {Trim} else {}) + (if s.jump then {Jump} else {}) +
    (if s.stop then {Stop} else {}) + (if s.colorChange then {ColorChange} else {})
  }

  /** Tie-break order among flags: a smaller rank wins. */
  function Rank(c: Command): nat
  {
    match c
    case Trim => 0
    case Jump => 1
    case Stop => 2
    case ColorChange => 3
    case NormalStitch => 4
  }

  /**
   * The command recorded for a stitch: the highest-priority flag it carries
   * (TRIM > JUMP > STOP > COLOR_CHANGE), or NormalStitch when it carries none.
   */
  function Classify(s: Stitch): (c: Command)
    ensures c == NormalStitch <==> Flags(s) == {}
    ensures c != NormalStitch ==> c in Flags(s)
    ensures forall f :: f in Flags(s) ==> Rank(c) <= Rank(f)
  {
    if s.trim then Trim
    else if s.jump then Jump
    else if s.stop then Stop
    else if s.colorChange then ColorChange
    else NormalStitch
  }

  /** A trim, stop or colour-change stitch closes the segment it belongs to. */
  predicate EndsSegment(s: Stitch)
  {
    s.trim || s.stop || s.colorChange
  }

  /**
   * A stitch classified TRIM, STOP or COLOR_CHANGE always ends its segment; the only
   * segment-ending stitches classified otherwise are jumps that also carry a stop or
   * colour-change flag; a jump alone never ends a segment.
   */
  lemma ClassifyAndSegmentEnd(s: Stitch)
    ensures Classify(s) in {Trim, Stop, ColorChange} ==> EndsSegment(s)
    ensures EndsSegment(s) && Classify(s) !in {Trim, Stop, ColorChange} ==> Classify(s) == Jump && s.jump
    ensures Classify(s) == NormalStitch ==> !EndsSegment(s)
    ensures s.jump && !s.trim && !s.stop && !s.colorChange ==> Classify(s) == Jump && !EndsSegment(s)
  {
  }

  // ---------------------------------------------------------------------------
  // Segmenting one colour block

  /** Scanner state after a prefix of a block: the segments closed so far and the open one. */
  datatype Scanner = Scanner(closed: seq<seq<Stitch>>, open: seq<Stitch>)

  /** The scan of a block prefix: each stitch joins the open segment, which closes after a segment end. */
  function Scan(p: seq<Stitch>): Scanner
  {
    if p == [] then Scanner([], [])
    else
      var sc := Scan(p[..|p| - 1]);
      var s := p[|p| - 1];
      var o := sc.open + [s];
      if EndsSegment(s) then Scanner(sc.closed + [o], []) else Scanner(sc.closed, o)
  }

  /** The segments of a block: the closed ones, then the trailing open one unless it is empty. */
  function BlockSegments(stitches: seq<Stitch>): seq<seq<Stitch>>
  {
    var sc := Scan(stitches);
    if sc.open == [] then sc.closed else sc.closed + [sc.open]
  }

  /** No stitch but possibly the last one of a segment ends a segment. */
  predicate NoEndInside(seg: seq<Stitch>)
  {
    forall j :: 0 <= j < |seg| - 1 ==> !EndsSegment(seg[j])
  }

  /** A segment closed by the scan: non-empty, ended by its last stitch and by no earlier one. */
  predicate ClosedSegment(seg: seq<Stitch>)
  {
    seg != [] && NoEndInside(seg) && EndsSegment(Last(seg))
  }

  /**
   * P is a segmentation of block b: its pieces are non-empty, concatenate to b,
   * contain a segment end only as their last stitch, and every piece but the
   * last one does end with a segment end.
   */
  ghost predicate IsSegmentation(b: seq<Stitch>, P: seq<seq<Stitch>>)
  {
    && Concat(P) == b
    && (forall k :: 0 <= k < |P| ==> P[k] != [] && NoEndInside(P[k]))
    && (forall k :: 0 <= k < |P| - 1 ==> EndsSegment(Last(P[k])))
  }

  /** One step of the scan, stated on an appended stitch. */
  lemma ScanSnoc(init: seq<Stitch>, s: Stitch)
    ensures Scan(init + [s]) ==
      (var sc := Scan(init);
       if EndsSegment(s) then Scanner(sc.closed + [sc.open + [s]], []) else Scanner(sc.closed, sc.open + [s]))
  {
    assert (init + [s])[..|init|] == init;
  }

  lemma {:induction false} ScanConcat(p: seq<Stitch>)
    ensures Concat(Scan(p).closed) + Scan(p).open == p
    decreases |p|
  {
    if p != [] {
      var init := p[..|p| - 1];
      var s := Last(p);
      assert p == init + [s];
      ScanConcat(init);
      ScanSnoc(init, s);
      var sc := Scan(init);
      assert Concat(sc.closed) + (sc.open + [s]) == init + [s];
      if EndsSegment(s) {
        ConcatSnoc(sc.closed, sc.open + [s]);
        assert Concat(Scan(p).closed) == Concat(sc.closed) + (sc.open + [s]);
      } else {
        assert Scan(p) == Scanner(sc.closed, sc.open + [s]);
      }
    }
  }

  lemma {:induction false} ScanPieces(p: seq<Stitch>)
    ensures forall k :: 0 <= k < |Scan(p).closed| ==> ClosedSegment(Scan(p).closed[k])
    ensures forall j :: 0 <= j < |Scan(p).open| ==> !EndsSegment(Scan(p).open[j])
    decreases |p|
  {
    if p != [] {
      var init := p[..|p| - 1];
      var s := Last(p);
      assert p == init + [s];
      ScanPieces(init);
      ScanSnoc(init, s);
      var sc := Scan(init);
      var o := sc.open + [s];
      if EndsSegment(s) {
        assert ClosedSegment(o);
        var c := sc.closed + [o];
        assert forall k :: 0 <= k < |sc.closed| ==> c[k] == sc.closed[k];
      }
    }
  }

  lemma ScanInvariant(p: seq<Stitch>)
    ensures Concat(Scan(p).closed) + Scan(p).open == p
    ensures forall k :: 0 <= k < |Scan(p).closed| ==> ClosedSegment(Scan(p).closed[k])
    ensures forall j :: 0 <= j < |Scan(p).open| ==> !EndsSegment(Scan(p).open[j])
  {
    ScanConcat(p);
    ScanPieces(p);
  }

  /** BlockSegments cuts a block exactly as a segmentation must. */
  lemma BlockSegmentsIsSegmentation(b: seq<Stitch>)
    ensures IsSegmentation(b, BlockSegments(b))
  {
    ScanInvariant(b);
    var sc := Scan(b);
    if sc.open != [] {
      var P := sc.closed + [sc.open];
      ConcatSnoc(sc.closed, sc.open);
      forall k | 0 <= k < |P|
        ensures P[k] != [] && NoEndInside(P[k])
      {
        if k < |sc.closed| {
          assert P[k] == sc.closed[k];
          assert ClosedSegment(sc.closed[k]);
        }
      }
      forall k | 0 <= k < |P| - 1
        ensures EndsSegment(Last(P[k]))
      {
        assert P[k] == sc.closed[k];
        assert ClosedSegment(sc.closed[k]);
      }
    } else {
      assert Concat(sc.closed) + [] == Concat(sc.closed);
      forall k | 0 <= k < |sc.closed|
        ensures sc.closed[k] != [] && NoEndInside(sc.closed[k]) && EndsSegment(Last(sc.closed[k]))
      {
        assert ClosedSegment(sc.closed[k]);
      }
    }
  }

  /** Dropping the first piece of a segmentation leaves a segmentation of the rest of the block. */
  lemma SegmentationTail(b: seq<Stitch>, P: seq<seq<Stitch>>)
    requires IsSegmentation(b, P) && P != []
    ensures |P[0]| <= |b| && b[..|P[0]|] == P[0]
    ensures IsSegmentation(b[|P[0]|..], P[1..])
    ensures |P| == 1 ==> b == P[0]
  {
    ConcatFront(P);
    var rest := P[1..];
    assert forall k :: 0 <= k < |rest| ==> rest[k] == P[k + 1];
    if |P| == 1 {
      assert rest == [];
    }
  }

  /** A block has only one segmentation, so BlockSegments is characterised by IsSegmentation. */
  lemma {:induction false} SegmentationUnique(b: seq<Stitch>, P: seq<seq<Stitch>>, Q: seq<seq<Stitch>>)
    requires IsSegmentation(b, P) && IsSegmentation(b, Q)
    ensures P == Q
    decreases |b|
  {
    if P == [] || Q == [] {
      if P != [] {
        SegmentationTail(b, P);
        assert false;
      } else if Q != [] {
        SegmentationTail(b, Q);
        assert false;
      }
    } else {
      SegmentationTail(b, P);
      SegmentationTail(b, Q);
      var m, n := |P[0]|, |Q[0]|;
      assert m == n;
      assert P[0] == Q[0];
      SegmentationUnique(b[m..], P[1..], Q[1..]);
      assert P == [P[0]] + P[1..] && Q == [Q[0]] + Q[1..];
    }
  }

  /** Any segmentation of a block is the one BlockSegments builds. */
  lemma BlockSegmentsUnique(b: seq<Stitch>, P: seq<seq<Stitch>>)
    requires IsSegmentation(b, P)
    ensures P == BlockSegments(b)
  {
    BlockSegmentsIsSegmentation(b);
    SegmentationUnique(b, P, BlockSegments(b));
  }

  // ---------------------------------------------------------------------------
  // The stitch index of a whole plan

  /** The positions of a run of stitches. */
  function Trace(ss: seq<Stitch>): (r: seq<Point>)
    ensures |r| == |ss|
  {
    seq(|ss|, i requires 0 <= i < |ss| => ss[i].Position())
  }

  function Traces(segs: seq<seq<Stitch>>): (r: seq<seq<Point>>)
    ensures |r| == |segs|
  {
    seq(|segs|, k requires 0 <= k < |segs| => Trace(segs[k]))
  }

  /** The command entries of a run of stitches. */
  function Commands(ss: seq<Stitch>): (r: seq<Option<Command>>)
    ensures |r| == |ss|
  {
    seq(|ss|, i requires 0 <= i < |ss| => Some(Classify(ss[i])))
  }

  /** Every stitch of the plan, block after block. */
  function Flatten(plan: seq<ColorBlock>): seq<Stitch>
  {
    if plan == [] then [] else Flatten(plan[..|plan| - 1]) + plan[|plan| - 1].stitches
  }

  function NumStitches(plan: seq<ColorBlock>): nat
  {
    |Flatten(plan)|
  }

  /** The segment list: the segments of every block, block after block. */
  function PlanSegments(plan: seq<ColorBlock>): seq<seq<Point>>
  {
    if plan == [] then []
    else PlanSegments(plan[..|plan| - 1]) + Traces(BlockSegments(plan[|plan| - 1].stitches))
  }

  /** The pen list: one copy of a block's pen per segment of the block. */
  function PlanPens(plan: seq<ColorBlock>): seq<Pen>
  {
    if plan == [] then []
    else
      var b := plan[|plan| - 1];
      PlanPens(plan[..|plan| - 1]) + Repeat(PenFor(b.color), |BlockSegments(b.stitches)|)
  }

  /** The command list: a placeholder at index 0, then one entry per stitch. */
  function PlanCommands(plan: seq<ColorBlock>): seq<Option<Command>>
  {
    [None] + Commands(Flatten(plan))
  }

  lemma TraceSnoc(ss: seq<Stitch>, s: Stitch)
    ensures Trace(ss + [s]) == Trace(ss) + [s.Position()]
  {
  }

  lemma TracesSnoc(segs: seq<seq<Stitch>>, x: seq<Stitch>)
    ensures Traces(segs + [x]) == Traces(segs) + [Trace(x)]
  {
  }

  lemma CommandsAppend(a: seq<Stitch>, b: seq<Stitch>)
    ensures Commands(a + b) == Commands(a) + Commands(b)
  {
  }

  lemma RepeatSnoc<T>(x: T, n: nat)
    ensures Repeat(x, n + 1) == Repeat(x, n) + [x]
  {
  }

  /** One more stitch of a block: what the scan and the commands gain. */
  lemma ScanStep(stitches: seq<Stitch>, j: nat)
    requires j < |stitches|
    ensures var sc := Scan(stitches[..j]);
      var s := stitches[j];
      var next := Scan(stitches[..j + 1]);
      && Trace(next.open) == (if EndsSegment(s) then [] else Trace(sc.open) + [s.Position()])
      && Traces(next.closed) == (if EndsSegment(s) then Traces(sc.closed) + [Trace(sc.open) + [s.Position()]]
                                 else Traces(sc.closed))
      && |next.closed| == |sc.closed| + (if EndsSegment(s) then 1 else 0)
      && Commands(stitches[..j + 1]) == Commands(stitches[..j]) + [Some(Classify(s))]
  {
    var s := stitches[j];
    var sc := Scan(stitches[..j]);
    assert stitches[..j + 1] == stitches[..j] + [s];
    ScanSnoc(stitches[..j], s);
    CommandsAppend(stitches[..j], [s]);
    TraceSnoc(sc.open, s);
    TracesSnoc(sc.closed, sc.open + [s]);
  }

  /** One more block of the plan: what the three index lists gain. */
  lemma PlanStep(plan: seq<ColorBlock>, i: nat)
    requires i < |plan|
    ensures var b := plan[i];
      var sc := Scan(b.stitches);
      var pen := PenFor(b.color);
      && PlanSegments(plan[..i + 1]) ==
         PlanSegments(plan[..i]) + Traces(sc.closed) + (if sc.open == [] then [] else [Trace(sc.open)])
      && PlanPens(plan[..i + 1]) ==
         PlanPens(plan[..i]) + Repeat(pen, |sc.closed|) + (if sc.open == [] then [] else [pen])
      && PlanCommands(plan[..i + 1]) == PlanCommands(plan[..i]) + Commands(b.stitches)
  {
    var b := plan[i];
    var sc := Scan(b.stitches);
    assert plan[..i + 1][..i] == plan[..i];
    CommandsAppend(Flatten(plan[..i]), b.stitches);
    if sc.open != [] {
      TracesSnoc(sc.closed, sc.open);
      RepeatSnoc(PenFor(b.color), |sc.closed|);
    }
  }

  lemma {:induction false} ConcatTraces(segs: seq<seq<Stitch>>)
    ensures Concat(Traces(segs)) == Trace(Concat(segs))
    decreases |segs|
  {
    if segs != [] {
      var init := segs[..|segs| - 1];
      assert segs == init + [Last(segs)];
      TracesSnoc(init, Last(segs));
      ConcatSnoc(Traces(init), Trace(Last(segs)));
      ConcatSnoc(init, Last(segs));
      ConcatTraces(init);
      assert Trace(Concat(init) + Last(segs)) == Trace(Concat(init)) + Trace(Last(segs));
    }
  }

  lemma {:induction false} PensAligned(plan: seq<ColorBlock>)
    ensures |PlanPens(plan)| == |PlanSegments(plan)|
    decreases |plan|
  {
    if plan != [] {
      PensAligned(plan[..|plan| - 1]);
    }
  }

  lemma {:induction false} SegmentsNonEmpty(plan: seq<ColorBlock>)
    ensures forall k :: 0 <= k < |PlanSegments(plan)| ==> PlanSegments(plan)[k] != []
    decreases |plan|
  {
    if plan != [] {
      var init := plan[..|plan| - 1];
      var bs := BlockSegments(Last(plan).stitches);
      SegmentsNonEmpty(init);
      BlockSegmentsIsSegmentation(Last(plan).stitches);
      forall k | 0 <= k < |PlanSegments(plan)|
        ensures PlanSegments(plan)[k] != []
      {
        if k >= |PlanSegments(init)| {
          var j := k - |PlanSegments(init)|;
          assert PlanSegments(plan)[k] == Trace(bs[j]);
          assert bs[j] != [];
        }
      }
    }
  }

  /** The segments of a block concatenate back to the block. */
  lemma BlockSegmentsConcat(b: seq<Stitch>)
    ensures Concat(BlockSegments(b)) == b
  {
    ScanConcat(b);
    var sc := Scan(b);
    if sc.open != [] {
      ConcatSnoc(sc.closed, sc.open);
    } else {
      assert Concat(sc.closed) + [] == Concat(sc.closed);
    }
  }

  lemma TraceAppend(a: seq<Stitch>, b: seq<Stitch>)
    ensures Trace(a + b) == Trace(a) + Trace(b)
  {
  }

  lemma {:induction false} SegmentsTracePlan(plan: seq<ColorBlock>)
    ensures Concat(PlanSegments(plan)) == Trace(Flatten(plan))
    decreases |plan|
  {
    if plan != [] {
      var init := plan[..|plan| - 1];
      var b := Last(plan).stitches;
      var bs := BlockSegments(b);
      assert PlanSegments(plan) == PlanSegments(init) + Traces(bs);
      assert Flatten(plan) == Flatten(init) + b;
      SegmentsTracePlan(init);
      BlockSegmentsConcat(b);
      ConcatAppend(PlanSegments(init), Traces(bs));
      ConcatTraces(bs);
      TraceAppend(Flatten(init), b);
    }
  }

  /**
   * The index lists line up: one command per stitch plus the placeholder, one pen per
   * segment, no empty segment, and the segments together trace every stitch in plan order.
   */
  lemma PlanIndexWellFormed(plan: seq<ColorBlock>)
    ensures |PlanCommands(plan)| == NumStitches(plan) + 1
    ensures PlanCommands(plan)[0] == None
    ensures forall k :: 1 <= k <= NumStitches(plan) ==>
              PlanCommands(plan)[k] == Some(Classify(Flatten(plan)[k - 1]))
    ensures |PlanPens(plan)| == |PlanSegments(plan)|
    ensures forall k :: 0 <= k < |PlanSegments(plan)| ==> PlanSegments(plan)[k] != []
    ensures Concat(PlanSegments(plan)) == Trace(Flatten(plan))
  {
    CommandsIndexed(plan);
    PensAligned(plan);
    SegmentsNonEmpty(plan);
    SegmentsTracePlan(plan);
  }

  /** Entry k of the command list, for k >= 1, classifies stitch k of the plan. */
  lemma CommandsIndexed(plan: seq<ColorBlock>)
    ensures |PlanCommands(plan)| == NumStitches(plan) + 1
    ensures PlanCommands(plan)[0] == None
    ensures forall k :: 1 <= k <= NumStitches(plan) ==>
              PlanCommands(plan)[k] == Some(Classify(Flatten(plan)[k - 1]))
  {
    var f := Flatten(plan);
    var cs := PlanCommands(plan);
    assert cs == [None] + Commands(f);
    forall k | 1 <= k <= |f|
      ensures cs[k] == Some(Classify(f[k - 1]))
    {
      assert cs[k] == Commands(f)[k - 1];
    }
  }

  /**
   * Which block and which of its segments segment k of the index comes from: every segment
   * lies inside one colour block and is drawn with that block's pen.
   */
  function Owner(plan: seq<ColorBlock>, k: nat): (o: (nat, nat))
    requires k < |PlanSegments(plan)|
    ensures o.0 < |plan| && o.1 < |BlockSegments(plan[o.0].stitches)|
    ensures PlanSegments(plan)[k] == Trace(BlockSegments(plan[o.0].stitches)[o.1])
    ensures k < |PlanPens(plan)| && PlanPens(plan)[k] == PenFor(plan[o.0].color)
    decreases |plan|
  {
    var init := plan[..|plan| - 1];
    PensAligned(init);
    if k < |PlanSegments(init)| then
      var o := Owner(init, k);
      assert plan[o.0] == init[o.0];
      o
    else
      (|plan| - 1, k - |PlanSegments(init)|)
  }
}
